=== FILE: README.md ===
# Smart-home hardware controller, modelled in Dafny

This project models the hardware layer of a small smart-home dashboard.
A room light, a dimmable light, an RGB mood lamp, a doorbell button, an
ultrasonic proximity sensor and a camera sit behind one controller
interface. That interface has two implementations:

- `MockController`: records what it is told and synthesises sensor readings.
- `RaspberryPiController`: drives the devices through the RPi.GPIO and
  picamera2 libraries on a fixed BCM pin map.

The dashboard picks one implementation from the platform, creates it and
sets it up once per session, and uses a few helpers around it. Those
helpers are the hex colour parser, the simulated doorbell button, and the
proximity threshold with its progress bar.

Files (one module each):

- `options.dfy`: `Option`, the `None` sentinel.
- `rounding.dfy`: Python's `round(x, n)` on exact reals.
- `gpio.dfy`: the GPIO library's state as classes. `Board` holds the
  numbering mode, the warnings flag, pin directions, a log of driven
  outputs and the input levels the outside world drives. `Pwm` is a PWM
  generator with a duty cycle and a running flag. `Camera` is a camera
  session.
- `ultrasonic.dfy`: the echo timing protocol over a finite trace of samples.
- `mock_controller.dfy`: `MockController`.
- `pi_controller.dfy`: the pin map, the duty-cycle mapping and `PiController`.
- `controllers.dfy`: the controller contract. The abstract base class
  becomes the tagged value `Controller = Mock(..) | Pi(..)`, and each of
  the eight operations is dispatched on it.
- `hex_color.dfy`: `hex_to_rgb`, plus the `#rrggbb` format the colour
  picker produces.
- `dashboard.dfy`: controller selection, the once-per-session setup,
  the doorbell toggle, and proximity.

Randomness, time, the filesystem and device behaviour become parameters:

- the mock's distance noise;
- whether the placeholder image exists;
- `platform.machine()`;
- whether the Pi libraries import;
- whether the camera raises, stays stopped or starts;
- whether a capture succeeds;
- the echo pin's samples, each a level with the `time.time()` taken
  after that read.

The echo busy-waits run over a finite trace. Running off the end of the
trace (`NoEcho`) stands for a loop that never ends. Each `GPIO.input`
call consumes one sample. So the high sample that ends the first loop is
used up by that loop, and a high run of exactly one sample leaves
`pulse_end` unassigned (`EndUnbound`, lemma `EchoOneSampleHigh`).

Behaviour kept as written:

- `cleanup()` has no guards (hardware_controller.py:241, 246). So
  `PiController.Cleanup` reports `PwmMissing` before setup. Without a
  camera it reports `CameraMissing`, after the PWMs and pins have already
  been released.
- A second `setup()` raises, because `GPIO.PWM` will not create a second
  PWM on a pin that already has one (hardware_controller.py:151). The
  board records the pins that carry a PWM that has not been stopped
  (`Board.pwmPins`). The GPIO library's state belongs to the process,
  while `st.session_state` belongs to one browser session. So a second
  session on the same Pi creates a new controller, caches it, and then its
  `setup()` raises right after pin 12 is set up. That session keeps a
  controller that was never set up (`Session.Acquire` returns `raised`,
  and `TwoSessionsOneBoard` shows the case). Setting up the same
  controller twice is excluded by requiring `Unset()`.

## Model

| member | source | states |
|---|---|---|
| `MockHardware.MockController.constructor` | hardware_controller.py:46-50 | a new mock has the room light off, brightness 100, colour (255, 255, 255) and the doorbell not pressed |
| `MockHardware.MockController.Setup` | hardware_controller.py:53-55 | setting up simulated hardware changes nothing |
| `MockHardware.MockController.Cleanup` | hardware_controller.py:92-94 | cleaning up simulated hardware changes nothing |
| `MockHardware.MockController.SetRoomLight` | hardware_controller.py:57-60 | stores exactly the given state in the room-light field; brightness, colour and doorbell are unchanged |
| `MockHardware.MockController.SetDimmableLight` | hardware_controller.py:62-64 | stores exactly the given brightness; the room light (a separate field in the mock) and the rest are unchanged |
| `MockHardware.MockController.SetMoodLampColor` | hardware_controller.py:66-68 | stores exactly (r, g, b); the other fields are unchanged |
| `MockHardware.MockController.ReadDoorbell` | hardware_controller.py:70-73 | returns the stored doorbell flag and modifies nothing |
| `MockHardware.MockController.GetDistance` | hardware_controller.py:75-79 | for noise in [-1.5, 1.5] the reading is 80 + noise rounded to one decimal: it lies in [78.5, 81.5] and within 0.05 of 80 + noise |
| `MockHardware.MockController.CaptureImage` | hardware_controller.py:81-90 | returns the placeholder path if it exists and None otherwise, whatever output path is asked for |
| `PiHardware.PinMapShared` | hardware_controller.py:126-134 | two device roles share a BCM pin exactly when they are the room light and the dimmable light (pin 12); every other pin is distinct |
| `PiHardware.PinOf` | hardware_controller.py:126-134 | every role has one of the seven BCM pins, and pin 12 belongs exactly to the room light and the dimmable light |
| `PiHardware.SwitchDuty` | hardware_controller.py:192 | the room light's duty is 100 when on and 0 when off |
| `PiHardware.Configured` | hardware_controller.py:150-168 | after setup's `GPIO.setup` calls every device pin has its direction (outputs, pulled-up button, plain echo), the claimed pins are the old ones plus the seven device pins, and every other pin keeps its direction |
| `PiHardware.Duty` | hardware_controller.py:202-205 | a 0-255 channel value maps to a duty cycle in [0, 100], with 0 giving 0 and 255 giving 100 |
| `PiHardware.DutyMonotone` | hardware_controller.py:203-205 | a larger channel value never gives a smaller duty cycle |
| `PiHardware.IdleDoorbellReadsHigh` | hardware_controller.py:164 | after setup, a button pin nobody drives reads HIGH because of the pull-up |
| `PiHardware.PiController.constructor` | hardware_controller.py:111-142 | a new controller uses the given GPIO library and holds no PWM and no camera |
| `PiHardware.PiController.Setup` | hardware_controller.py:144-188 | selects BCM numbering and turns warnings off; when pin 12 already carries a PWM it stops right after setting pin 12 up (GPIO.PWM raises) and the controller still holds nothing; otherwise gives every pin its direction (lamps, RGB and trigger out, button in with pull-up, echo in), registers the four lamp pins as PWM pins, leaves all four PWMs fresh and running at 0 % (500 Hz LED, 100 Hz RGB), and keeps a camera only when it started, else None; the rest of setup completes either way |
| `PiHardware.PiController.StartLamps` | hardware_controller.py:149-161 | the LED pin and the three RGB pins become outputs, each with a new PWM on its own pin started at 0 % |
| `PiHardware.PiController.ConfigureSensors` | hardware_controller.py:163-168 | the button becomes a pulled-up input, the trigger an output and the echo a plain input; nothing else changes |
| `PiHardware.PiController.StartCamera` | hardware_controller.py:170-186 | a camera that raises or reports not started gives None; otherwise a fresh, started camera |
| `PiHardware.PiController.SetRoomLight` | hardware_controller.py:190-195 | the shared LED PWM's duty becomes 100 for on and 0 for off; nothing else changes |
| `PiHardware.PiController.SetDimmableLight` | hardware_controller.py:197-199 | the shared LED PWM's duty becomes the brightness unchanged, so whichever of the two LED setters ran last decides the duty |
| `PiHardware.PiController.SetMoodLampColor` | hardware_controller.py:201-206 | each RGB PWM's duty becomes its channel value / 255 * 100; only those three PWMs change |
| `PiHardware.PiController.ReadDoorbell` | hardware_controller.py:208-210 | true exactly when the button pin reads LOW (active low) |
| `PiHardware.PiController.GetDistance` | hardware_controller.py:212-228 | drives the trigger low, high, low; the reading is the echo protocol's result on the sampled trace |
| `PiHardware.PiController.CaptureImage` | hardware_controller.py:230-237 | the output path when a camera exists and the capture succeeds; None on a capture failure and None when the camera is absent |
| `PiHardware.PiController.Cleanup` | hardware_controller.py:239-247 | before setup it fails at once and changes nothing (no pin, no camera); the board's warnings flag, output log and input levels are kept either way; otherwise it stops all four PWMs and releases every pin, then stops the camera, or fails there when the camera is None; the four duties and the camera's configuration are kept |
| `Ultrasonic.Distance` | hardware_controller.py:226-228 | the distance is (end − start) × 17150 rounded to two decimals: a whole number of hundredths within 0.005 of the exact value, and never negative when the pulse ends after it starts |
| `Ultrasonic.Echo` | hardware_controller.py:220-228 | a measured reading needs an echo that reads low first, then high, in a trace of at least four samples |
| `Ultrasonic.RunEnd` | hardware_controller.py:220-224 | the index where a run of equal echo levels ends: every sample before it has the level, the one at it does not |
| `Ultrasonic.TimeEcho` | hardware_controller.py:220-228 | the two polling loops compute exactly `Echo(trace)` |
| `Ultrasonic.RunEndExtends` | hardware_controller.py:220-224 | a run that ends inside a trace ends at the same index in any extension of it |
| `Ultrasonic.EchoPulse` | hardware_controller.py:220-228 | low run, then a high run of two or more samples, then low: the reading is (time of the last high − time of the last low) × 17150, rounded to two decimals |
| `Ultrasonic.EchoOneSampleHigh` | hardware_controller.py:220-226 | a high run of a single sample leaves pulse_end unassigned |
| `Ultrasonic.EchoHighAtFirstRead` | hardware_controller.py:220-226 | echo already high at the first read: pulse_start is never assigned and no distance is returned |
| `Ultrasonic.EchoNeverRises` | hardware_controller.py:220-221 | an echo that stays low keeps the first loop polling for ever |
| `Ultrasonic.EchoNeverFalls` | hardware_controller.py:223-224 | an echo that rises and stays high keeps the second loop polling for ever |
| `Ultrasonic.EchoNonNegative` | hardware_controller.py:226-228 | with timestamps that never go back, a measured distance is ≥ 0 |
| `Ultrasonic.EchoIgnoresLaterSamples` | hardware_controller.py:220-228 | once the loops have finished, samples after the ones consumed do not change the reading |
| `Ultrasonic.EchoExample` | hardware_controller.py:226-228 | echo rising after 0.0002 s and falling after 0.0007 s gives 8.575 cm, rounded to 8.58 |
| `Rounding.Round` | hardware_controller.py:228 | the rounded value is a whole number of units of the last decimal place, and lies within half a unit of the input |
| `Rounding.RoundMonotone` | hardware_controller.py:228 | rounding keeps the order of two values |
| `Rounding.RoundExact` | hardware_controller.py:79 | a value that already has that many decimals is left unchanged |
| `Rounding.RoundWithin` | hardware_controller.py:77-79 | a value in an interval whose bounds have that many decimals still lies in the interval after rounding |
| `Gpio.Board.Sampled` | hardware_controller.py:208-210 | an input pin reads the level the outside world drives; undriven, it reads HIGH exactly under a pull-up |
| `Gpio.Board.SetMode` | hardware_controller.py:146 | GPIO.setmode records the numbering mode and changes nothing else |
| `Gpio.Board.SetWarnings` | hardware_controller.py:147 | GPIO.setwarnings records the flag and changes nothing else |
| `Gpio.Board.Setup` | hardware_controller.py:150 | GPIO.setup records the pin's direction and changes nothing else |
| `Gpio.Board.Output` | hardware_controller.py:213-218 | GPIO.output, allowed only on an output pin, appends (pin, level) to the output log |
| `Gpio.Board.Input` | hardware_controller.py:210 | GPIO.input on a claimed pin returns the driven level, or the pull resistor's level when nothing drives it |
| `Gpio.Board.Cleanup` | hardware_controller.py:245 | GPIO.cleanup releases every pin and clears the numbering mode |
| `Gpio.Pwm.constructor` | hardware_controller.py:151 | GPIO.PWM on an output pin without a PWM gives a stopped PWM at duty 0 and registers the pin with the board; the board is otherwise unchanged |
| `Gpio.Pwm.Start` | hardware_controller.py:152 | a started PWM runs at the given duty |
| `Gpio.Pwm.ChangeDutyCycle` | hardware_controller.py:193 | sets the duty (only values in 0-100 are accepted) and keeps the running flag |
| `Gpio.Pwm.Stop` | hardware_controller.py:241-244 | a stopped PWM no longer runs and its pin no longer counts as carrying a PWM |
| `Gpio.Camera.constructor` | hardware_controller.py:173 | a new camera is neither configured nor started |
| `Gpio.Camera.Configure` | hardware_controller.py:174-175 | configuring a camera marks it configured and does not start it |
| `Gpio.Camera.Start` | hardware_controller.py:176-178 | starting a configured camera leaves it started exactly when the device comes up |
| `Gpio.Camera.Stop` | hardware_controller.py:246 | a stopped camera is no longer started |
| `Controllers.Setup` | hardware_controller.py:14-15 | the mock is untouched and ends ready; the Pi ends ready exactly when pin 12 had no PWM, and otherwise still holds nothing; either way the Pi selects BCM with warnings off; when ready it gives the device pins their directions, registers and starts four fresh PWMs at 0 % (500 Hz LED, 100 Hz RGB) and keeps a camera exactly when it started |
| `Controllers.SetRoomLight` | hardware_controller.py:17-18 | the mock records the state and nothing else; the Pi sets the shared LED to 100 % or 0 % and changes no other PWM and no pin |
| `Controllers.SetDimmableLight` | hardware_controller.py:20-21 | the mock records the level and nothing else; the Pi sets the shared LED's duty to the level and changes no other PWM and no pin |
| `Controllers.SetMoodLampColor` | hardware_controller.py:23-24 | the mock records (r, g, b) and nothing else; the Pi sets each channel's duty to value / 255 * 100 and leaves the LED PWM and the pins alone |
| `Controllers.ReadDoorbell` | hardware_controller.py:26-27 | the mock returns its flag; the Pi returns whether the button pin reads LOW |
| `Controllers.GetDistance` | hardware_controller.py:29-30 | the mock returns 80 + noise rounded to one decimal, within [78.5, 81.5], and changes nothing; the Pi pulses the trigger low, high, low, changes no other pin state and returns the echo protocol's reading |
| `Controllers.CaptureImage` | hardware_controller.py:32-33 | the mock returns the placeholder or None; the Pi returns the output path or None |
| `Controllers.Cleanup` | hardware_controller.py:35-36 | the mock releases nothing and succeeds; the Pi fails before setup and changes no pin; otherwise it stops all four PWMs (freeing their pins for new PWMs), releases every pin, clears the numbering mode, then stops the camera or fails when there is none; the board's warnings flag, output log and input levels, the four duties and the camera's configuration are kept |
| `Dashboard.IsPiMachine` | Home_Dashboard.py:18 | true exactly when the machine string starts with "arm" or "aarch64" |
| `Dashboard.MachineExamples` | Home_Dashboard.py:18 | "armv7l" and "aarch64" count as a Pi; "x86_64", "AMD64", "ar" and "" do not |
| `Dashboard.GetController` | Home_Dashboard.py:16-31 | the Pi controller exactly when the machine starts with "arm" or "aarch64" and the libraries import; otherwise a new mock in its initial state; a warning exactly when an ARM machine falls back |
| `Dashboard.Session.constructor` | Home_Dashboard.py:36 | a new session holds no controller |
| `Dashboard.Session.Acquire` | Home_Dashboard.py:36-38 | the first run caches a new controller (a fresh mock in its initial state, or a fresh Pi controller on the given board) and sets it up: the mock path leaves the board untouched; the Pi path sets BCM numbering and warnings off and keeps the output log and input levels; the controller is ready with every pin configured, all four PWMs at 0 % and a camera exactly when it started, unless another controller's PWM on pin 12 makes setup raise, which leaves the cached controller never set up with only pin 12 made an output; later runs return the cached instance and leave the hardware untouched |
| `Dashboard.TwoSessionsOneBoard` | Home_Dashboard.py:36-38 | on one Pi, the first session's setup succeeds and a second session's setup raises |
| `Dashboard.PressSimulatedDoorbell` | Home_Dashboard.py:88-93 | on the mock the doorbell flag is negated and nothing else changes, so the next read returns the negation and two presses restore it |
| `Dashboard.ObjectDetected` | Home_Dashboard.py:106-108 | an object is reported exactly when the bar is at least as full as it is at the 20 cm threshold |
| `Dashboard.Progress` | Home_Dashboard.py:114 | the bar's fill is ≥ 0, ≤ 1 for distances ≥ 0, and 0 exactly from 300 cm on |
| `Dashboard.ProgressAntitone` | Home_Dashboard.py:114 | a nearer object never shows a smaller bar |
| `Dashboard.DetectedBarNearlyFull` | Home_Dashboard.py:106-114 | a distance reported as an object (≤ 20 cm, ≥ 0) fills more than 90 % of the bar |
| `HexColor.LStrip` | Home_Dashboard.py:47 | the result is the input minus its whole leading run of '#', and it does not start with '#' |
| `HexColor.Slice` | Home_Dashboard.py:48 | Python slicing clamps to the length, so a slice past the end is shorter or empty rather than an error; each character is the one at the same offset from i |
| `HexColor.ParseHex` | Home_Dashboard.py:48 | base-16 parsing succeeds exactly on a non-empty string of hex digits, and the value has at most as many hex digits as the string |
| `HexColor.HexToRgb` | Home_Dashboard.py:45-48 | every component of a parsed colour lies in 0..255 |
| `HexColor.DigitValue` | Home_Dashboard.py:48 | a character is a hex digit, of value below 16, exactly when it is 0-9, a-f or A-F |
| `HexColor.HexDigit` | Home_Dashboard.py:74 | the digit written for 0..15, in either case, parses back to that value |
| `HexColor.HexByte` | Home_Dashboard.py:74 | two digits, the high one first, that parse back to v / 16 and v % 16 |
| `HexColor.ToHex` | Home_Dashboard.py:74 | "#" followed by six hex digits |
| `HexColor.HexRoundTrip` | Home_Dashboard.py:45-48 | formatting (r, g, b) in 0..255 as "#rrggbb" or "#RRGGBB" and parsing it returns (r, g, b) |
| `HexColor.DefaultColourIsWhite` | Home_Dashboard.py:74-75 | the picker's default "#FFFFFF" parses to (255, 255, 255) |
| `HexColor.ExtraHashIgnored` | Home_Dashboard.py:47 | any number of leading '#' is stripped: one more '#' changes nothing |
| `HexColor.TooShortFails` | Home_Dashboard.py:47-48 | with four or fewer characters after stripping, the third slice is empty and parsing fails |
| `HexColor.FiveCharactersBlue` | Home_Dashboard.py:47-48 | with five characters after stripping, blue is the single fifth hex digit |
| `HexColor.TailIgnored` | Home_Dashboard.py:47-48 | characters after the sixth (after stripping) are ignored |

## Left out

- Streamlit rendering is not modelled: pages, widgets, `st.rerun`, spinners, the info and warning texts and the snapshot display. The controller's `print` logging is not modelled either. None of them has behaviour to verify.
- The library exceptions are not modelled as exceptions. Before `setup()`, the Pi's three setters raise AttributeError (there is no PWM yet). `read_doorbell` and `get_distance` raise RuntimeError from RPi.GPIO while no controller in the process has set the board up (no numbering mode, no pin set up). Here all of these are excluded by requiring `Ready()`. A second `setup()` on the same controller without `cleanup()` in between raises in the GPIO library and is excluded by requiring `Unset()`. A `setup()` after `cleanup()` is also excluded by `Unset()`; the dashboard never calls `cleanup()`.
- PiHardware.PiController.Setup: a board where pin 12 is free but one of the RGB pins (18, 23, 24) already carries a PWM is excluded. Only code outside this model can leave a board like that. `setup()` would raise there at hardware_controller.py:155-157, after `pwm_led` had already been assigned.
- The RPi.GPIO library is not part of this model. Its behaviour is assumed as follows: `GPIO.PWM` refuses a pin that already has a PWM, stopping a PWM frees its pin, and `GPIO.cleanup()` leaves PWM objects alone.
- `time.sleep` is not modelled: the 1 s camera warm-up, the 0.5 s settle and the 10 µs trigger pulse. `time.time()` values come in with the echo trace.
- The bounded-timeout variant of the echo wait is not modelled because the code does not have one. The finite trace is the only bound.
- PWM frequencies are recorded but have no timing meaning. `GPIO.setup` on the list of RGB pins is modelled as three single-pin calls.
- HexColor.ParseHex: Python's `int(s, 16)` leniencies are not modelled: whitespace, a sign, underscores, a `0x` prefix and non-ASCII decimal digits (such as Arabic-Indic digits) all make the model return None.
- The dashboard's check that the returned snapshot path exists (Home_Dashboard.py:131) and the re-display after a rerun are UI.
- Python values are dynamically typed in the source. The model fixes the types: the room light state is a bool, and brightness and colour channels are ints.
- Rounding.Round: rounds ties upward on exact reals. Python's `round` works on the binary double and rounds exact ties to even, so a reading can differ in its last decimal.
- PiHardware.Duty: computed on exact reals, not IEEE-754 doubles.
- MockHardware.PlaceholderPath: written with the POSIX separator. `os.path.join("assets", "placeholder.jpg")` gives `assets\placeholder.jpg` on Windows.

=== FILE: controllers.dfy ===
/**
 * The controller contract (BaseController): one value that is either the
 * simulated or the Raspberry Pi controller, decided once, and the eight
 * operations dispatched on it.
 */
module Controllers {
  import opened Options
  import opened Gpio
  import opened Ultrasonic
  import opened MockHardware
  import opened PiHardware
  import opened Rounding

  datatype Controller = Mock(mock: MockController) | Pi(pi: PiController)
  {
    /** The objects an operation on this controller may touch. */
    ghost function Footprint(): set<object?>
      reads if Pi? then {pi} else {}
    {
      if Mock? then {mock} else {pi, pi.gpio, pi.pwmLed, pi.pwmR, pi.pwmG, pi.pwmB, pi.picam2}
    }

    ghost predicate Valid()
      reads Footprint()
    {
      Mock? || pi.Valid()
    }

    /** Constructed and not yet set up. */
    ghost predicate Unset()
      reads Footprint()
    {
      Mock? || pi.Unset()
    }

    /** Set up and not cleaned up: the device operations may be called. */
    ghost predicate Ready()
      reads Footprint()
    {
      Mock? || pi.Ready()
    }
  }

  /**
   * Mock: nothing happens. Pi: everything RaspberryPiController.setup does,
   * or, when pin 12 of its board already carries a PWM, the exception
   * GPIO.PWM raises (`ok` false) with the controller still holding nothing.
   */
  method Setup(hw: Controller, camera: CameraBehaviour) returns (ok: bool)
    requires hw.Valid() && hw.Unset()
    requires hw.Pi? ==> LedPin in hw.pi.gpio.pwmPins || {RPin, GPin, BPin} !! hw.pi.gpio.pwmPins
    modifies if hw.Mock? then {} else {hw.pi, hw.pi.gpio}
    ensures ok <==> hw.Mock? || LedPin !in old(hw.pi.gpio.pwmPins)
    ensures hw.Valid()
    ensures ok ==> hw.Ready()
    ensures !ok ==> hw.Unset()
    ensures hw.Pi? ==> hw.pi.gpio.numbering == Some(Bcm) && !hw.pi.gpio.warnings
    ensures hw.Pi? ==> hw.pi.gpio.driven == old(hw.pi.gpio.driven) && hw.pi.gpio.levels == old(hw.pi.gpio.levels)
    ensures hw.Pi? && !ok ==> hw.pi.gpio.directions == old(hw.pi.gpio.directions)[LedPin := Out]
    ensures hw.Pi? && !ok ==> hw.pi.gpio.pwmPins == old(hw.pi.gpio.pwmPins)
    ensures hw.Pi? && ok ==> hw.pi.gpio.directions == Configured(old(hw.pi.gpio.directions))
    ensures hw.Pi? && ok ==> hw.pi.gpio.pwmPins == old(hw.pi.gpio.pwmPins) + LampPins
    ensures hw.Pi? && ok ==> fresh(hw.pi.pwmLed) && fresh(hw.pi.pwmR) && fresh(hw.pi.pwmG) && fresh(hw.pi.pwmB)
    ensures hw.Pi? && ok ==> hw.pi.pwmLed.frequency == LedFrequency && hw.pi.pwmR.frequency == RgbFrequency
    ensures hw.Pi? && ok ==> hw.pi.pwmG.frequency == RgbFrequency && hw.pi.pwmB.frequency == RgbFrequency
    ensures hw.Pi? && ok ==> hw.pi.pwmLed.duty == 0.0 && hw.pi.pwmR.duty == 0.0 && hw.pi.pwmG.duty == 0.0 && hw.pi.pwmB.duty == 0.0
    ensures hw.Pi? && ok ==> (hw.pi.picam2 != null <==> camera == Starts)
    ensures hw.Pi? && hw.pi.picam2 != null ==> fresh(hw.pi.picam2) && hw.pi.picam2.started
  {
    match hw
    case Mock(m) =>
      m.Setup();
      ok := true;
    case Pi(p) =>
      ok := p.Setup(camera);
  }

  /** Mock: only the room-light field changes. Pi: only the shared LED PWM changes. */
  method SetRoomLight(hw: Controller, on: bool)
    requires hw.Ready()
    modifies if hw.Mock? then {hw.mock} else {hw.pi.pwmLed}
    ensures hw.Ready()
    ensures hw.Mock? ==> hw.mock.roomLight == on
    ensures hw.Mock? ==> hw.mock.brightness == old(hw.mock.brightness) && hw.mock.color == old(hw.mock.color)
    ensures hw.Mock? ==> hw.mock.doorbellPressed == old(hw.mock.doorbellPressed)
    ensures hw.Pi? ==> hw.pi.pwmLed.duty == SwitchDuty(on)
    ensures hw.Pi? ==> unchanged(hw.pi, hw.pi.gpio, hw.pi.pwmR, hw.pi.pwmG, hw.pi.pwmB)
  {
    match hw
    case Mock(m) => m.SetRoomLight(on);
    case Pi(p) => p.SetRoomLight(on);
  }

  /**
   * Mock: only the brightness field changes, whatever the level. Pi: only
   * the shared LED PWM changes, and its PWM rejects a level outside 0-100.
   */
  method SetDimmableLight(hw: Controller, level: int)
    requires hw.Ready()
    requires hw.Pi? ==> 0 <= level <= 100
    modifies if hw.Mock? then {hw.mock} else {hw.pi.pwmLed}
    ensures hw.Ready()
    ensures hw.Mock? ==> hw.mock.brightness == level
    ensures hw.Mock? ==> hw.mock.roomLight == old(hw.mock.roomLight) && hw.mock.color == old(hw.mock.color)
    ensures hw.Mock? ==> hw.mock.doorbellPressed == old(hw.mock.doorbellPressed)
    ensures hw.Pi? ==> hw.pi.pwmLed.duty == level as real
    ensures hw.Pi? ==> unchanged(hw.pi, hw.pi.gpio, hw.pi.pwmR, hw.pi.pwmG, hw.pi.pwmB)
  {
    match hw
    case Mock(m) => m.SetDimmableLight(level);
    case Pi(p) => p.SetDimmableLight(level);
  }

  /** Mock: only the colour field changes. Pi: only the three RGB PWMs change. */
  method SetMoodLampColor(hw: Controller, r: int, g: int, b: int)
    requires hw.Ready()
    requires hw.Pi? ==> 0 <= r <= 255 && 0 <= g <= 255 && 0 <= b <= 255
    modifies if hw.Mock? then {hw.mock} else {hw.pi.pwmR, hw.pi.pwmG, hw.pi.pwmB}
    ensures hw.Ready()
    ensures hw.Mock? ==> hw.mock.color == (r, g, b)
    ensures hw.Mock? ==> hw.mock.roomLight == old(hw.mock.roomLight) && hw.mock.brightness == old(hw.mock.brightness)
    ensures hw.Mock? ==> hw.mock.doorbellPressed == old(hw.mock.doorbellPressed)
    ensures hw.Pi? ==> hw.pi.pwmR.duty == Duty(r) && hw.pi.pwmG.duty == Duty(g) && hw.pi.pwmB.duty == Duty(b)
    ensures hw.Pi? ==> unchanged(hw.pi, hw.pi.gpio, hw.pi.pwmLed)
  {
    match hw
    case Mock(m) => m.SetMoodLampColor(r, g, b);
    case Pi(p) => p.SetMoodLampColor(r, g, b);
  }

  method ReadDoorbell(hw: Controller) returns (pressed: bool)
    requires hw.Ready()
    ensures hw.Mock? ==> pressed == hw.mock.doorbellPressed
    ensures hw.Pi? ==> (pressed <==> hw.pi.gpio.Sampled(BtnPin) == Low)
  {
    match hw
    case Mock(m) => pressed := m.ReadDoorbell();
    case Pi(p) => pressed := p.ReadDoorbell();
  }

  /**
   * `noise` is the mock's random draw; `echo` is what the Pi's echo pin
   * shows. The mock changes nothing; the Pi pulses the trigger and changes
   * nothing else.
   */
  method GetDistance(hw: Controller, noise: real, echo: seq<Sample>) returns (reading: Reading)
    requires hw.Ready()
    requires hw.Mock? ==> -NoiseBound <= noise <= NoiseBound
    modifies if hw.Mock? then {} else {hw.pi.gpio}
    ensures hw.Ready()
    ensures hw.Mock? ==> reading == Measured(Round(BaseDistance + noise, 1))
    ensures hw.Mock? ==> 78.5 <= reading.cm <= 81.5
    ensures hw.Pi? ==> reading == Echo(echo)
    ensures hw.Pi? ==> hw.pi.gpio.driven == old(hw.pi.gpio.driven) + [(TrigPin, Low), (TrigPin, High), (TrigPin, Low)]
    ensures hw.Pi? ==> hw.pi.gpio.numbering == old(hw.pi.gpio.numbering) && hw.pi.gpio.directions == old(hw.pi.gpio.directions)
    ensures hw.Pi? ==> hw.pi.gpio.levels == old(hw.pi.gpio.levels) && hw.pi.gpio.warnings == old(hw.pi.gpio.warnings)
    ensures hw.Pi? ==> hw.pi.gpio.pwmPins == old(hw.pi.gpio.pwmPins)
  {
    match hw
    case Mock(m) =>
      var cm := m.GetDistance(noise);
      reading := Measured(cm);
    case Pi(p) =>
      reading := p.GetDistance(echo);
  }

  /** `placeholderExists` is the mock's filesystem check; `captureSucceeds` is the Pi camera's. */
  method CaptureImage(hw: Controller, outputPath: string, placeholderExists: bool, captureSucceeds: bool)
    returns (path: Option<string>)
    ensures hw.Mock? ==> path == if placeholderExists then Some(PlaceholderPath) else None
    ensures hw.Pi? ==> path == if hw.pi.picam2 != null && captureSucceeds then Some(outputPath) else None
  {
    match hw
    case Mock(m) => path := m.CaptureImage(outputPath, placeholderExists);
    case Pi(p) => path := p.CaptureImage(outputPath, captureSucceeds);
  }

  /**
   * Mock: nothing to release. Pi: fails at once before setup; otherwise
   * stops the PWMs, releases the pins, then stops the camera or fails there.
   */
  method Cleanup(hw: Controller) returns (outcome: CleanupOutcome)
    requires hw.Valid()
    modifies if hw.Mock? then {} else {hw.pi.gpio, hw.pi.pwmLed, hw.pi.pwmR, hw.pi.pwmG, hw.pi.pwmB, hw.pi.picam2}
    ensures hw.Valid()
    ensures hw.Mock? ==> outcome == Released
    ensures hw.Pi? && hw.pi.pwmLed == null ==> outcome == PwmMissing && unchanged(hw.pi.gpio) && hw.pi.picam2 == null
    ensures hw.Pi? && hw.pi.pwmLed != null ==> hw.pi.gpio.pwmPins == old(hw.pi.gpio.pwmPins) - LampPins
    ensures hw.Pi? ==> hw.pi.gpio.warnings == old(hw.pi.gpio.warnings) && hw.pi.gpio.driven == old(hw.pi.gpio.driven)
    ensures hw.Pi? ==> hw.pi.gpio.levels == old(hw.pi.gpio.levels)
    ensures hw.Pi? && hw.pi.pwmLed != null ==> hw.pi.pwmLed.duty == old(hw.pi.pwmLed.duty) && hw.pi.pwmR.duty == old(hw.pi.pwmR.duty)
    ensures hw.Pi? && hw.pi.pwmLed != null ==> hw.pi.pwmG.duty == old(hw.pi.pwmG.duty) && hw.pi.pwmB.duty == old(hw.pi.pwmB.duty)
    ensures hw.Pi? && hw.pi.picam2 != null ==> hw.pi.picam2.configured == old(hw.pi.picam2.configured)
    ensures hw.Pi? && hw.pi.pwmLed != null ==> !hw.pi.pwmLed.running && !hw.pi.pwmR.running && !hw.pi.pwmG.running && !hw.pi.pwmB.running
    ensures hw.Pi? && hw.pi.pwmLed != null ==> hw.pi.gpio.directions == map[] && hw.pi.gpio.numbering == None && !hw.Ready()
    ensures hw.Pi? && hw.pi.pwmLed != null ==> outcome == if hw.pi.picam2 == null then CameraMissing else Released
    ensures hw.Pi? && hw.pi.pwmLed != null && hw.pi.picam2 != null ==> !hw.pi.picam2.started
  {
    match hw
    case Mock(m) =>
      m.Cleanup();
      outcome := Released;
    case Pi(p) =>
      outcome := p.Cleanup();
  }
}

=== FILE: dashboard.dfy ===
/**
 * The dashboard's logic around the controller: choosing the controller
 * from the platform, creating and setting it up once per session, the
 * simulated doorbell button, and the proximity threshold and progress bar.
 */
module Dashboard {
  import opened Options
  import opened Gpio
  import opened MockHardware
  import opened PiHardware
  import opened Controllers

  /** platform.machine() names an ARM board: it starts with "arm" or "aarch64". */
  function IsPiMachine(machine: string): (isPi: bool)
    ensures isPi <==> (|machine| >= 3 && machine[..3] == "arm") || (|machine| >= 7 && machine[..7] == "aarch64")
  {
    "arm" <= machine || "aarch64" <= machine
  }

  lemma MachineExamples()
    ensures IsPiMachine("armv7l") && IsPiMachine("aarch64")
    ensures !IsPiMachine("x86_64") && !IsPiMachine("") && !IsPiMachine("AMD64") && !IsPiMachine("ar")
  {
    assert "x86_64"[0] == 'x' && "AMD64"[0] == 'A';
  }

  /**
   * get_controller: the Pi controller on an ARM machine whose hardware
   * libraries import (`librariesImport`), otherwise the mock; the fallback
   * on an ARM machine comes with a warning.
   */
  method GetController(machine: string, librariesImport: bool, gpio: Board) returns (hw: Controller, warned: bool)
    ensures hw.Pi? <==> IsPiMachine(machine) && librariesImport
    ensures warned <==> IsPiMachine(machine) && !librariesImport
    ensures hw.Valid() && hw.Unset()
    ensures hw.Mock? ==> fresh(hw.mock) && hw.mock.Initial()
    ensures hw.Pi? ==> fresh(hw.pi) && hw.pi.gpio == gpio
  {
    warned := false;
    if IsPiMachine(machine) {
      if librariesImport {
        var p := new PiController(gpio);
        hw := Pi(p);
      } else {
        warned := true;
        var m := new MockController();
        hw := Mock(m);
      }
    } else {
      var m := new MockController();
      hw := Mock(m);
    }
  }

  /** st.session_state: holds the controller once it has been created. */
  class Session {
    var hwController: Option<Controller>

    constructor ()
      ensures hwController == None
    {
      hwController := None;
    }

    /**
     * The first run creates a new controller, caches it and calls setup()
     * on it; every later run gets the same instance back and sets nothing
     * up again. Setup runs after the controller is cached, so when it
     * raises (`raised`: another session's controller already holds pin 12
     * of this process's board) the session keeps a controller that was
     * never set up.
     */
    method Acquire(machine: string, librariesImport: bool, gpio: Board, camera: CameraBehaviour)
      returns (hw: Controller, warned: bool, raised: bool)
      requires hwController.None? && IsPiMachine(machine) && librariesImport ==> LedPin in gpio.pwmPins || {RPin, GPin, BPin} !! gpio.pwmPins
      modifies this, gpio
      ensures old(hwController).Some? ==> hwController == old(hwController) && hw == old(hwController).value
      ensures old(hwController).Some? ==> !warned && !raised && unchanged(gpio)
      ensures old(hwController).None? ==> hwController == Some(hw) && hw.Valid()
      ensures old(hwController).None? ==> (hw.Pi? <==> IsPiMachine(machine) && librariesImport)
      ensures old(hwController).None? ==> (warned <==> IsPiMachine(machine) && !librariesImport)
      ensures old(hwController).None? ==> (raised <==> hw.Pi? && LedPin in old(gpio.pwmPins))
      ensures old(hwController).None? && !raised ==> hw.Ready()
      ensures old(hwController).None? && raised ==> hw.Unset()
      ensures old(hwController).None? && hw.Mock? ==> fresh(hw.mock) && hw.mock.Initial()
      ensures old(hwController).None? && hw.Pi? ==> fresh(hw.pi) && hw.pi.gpio == gpio
      ensures old(hwController).None? && hw.Pi? && !raised ==> hw.pi.pwmLed.duty == 0.0 && hw.pi.pwmR.duty == 0.0
      ensures old(hwController).None? && hw.Pi? && !raised ==> hw.pi.pwmG.duty == 0.0 && hw.pi.pwmB.duty == 0.0
      ensures old(hwController).None? && hw.Pi? && !raised ==> (hw.pi.picam2 != null <==> camera == Starts)
      ensures old(hwController).None? && hw.Pi? && !raised ==> gpio.pwmPins == old(gpio.pwmPins) + LampPins
      ensures hw.Mock? || raised ==> gpio.pwmPins == old(gpio.pwmPins)
      ensures old(hwController).None? && hw.Mock? ==> unchanged(gpio)
      ensures old(hwController).None? && hw.Pi? ==> gpio.numbering == Some(Bcm) && !gpio.warnings
      ensures old(hwController).None? && hw.Pi? ==> gpio.driven == old(gpio.driven) && gpio.levels == old(gpio.levels)
      ensures old(hwController).None? && hw.Pi? && !raised ==> gpio.directions == Configured(old(gpio.directions))
      ensures old(hwController).None? && hw.Pi? && raised ==> gpio.directions == old(gpio.directions)[LedPin := Out]
    {
      raised := false;
      if hwController.None? {
        hw, warned := GetController(machine, librariesImport, gpio);
        hwController := Some(hw);
        var ok := Setup(hw, camera);
        raised := !ok;
      } else {
        hw := hwController.value;
        warned := false;
      }
    }
  }

  /**
   * Two browser sessions on one Raspberry Pi share the process's GPIO
   * board: the first sets its controller up, the second one's setup()
   * raises because pin 12 already carries the first one's PWM.
   */
  method TwoSessionsOneBoard(gpio: Board, camera: CameraBehaviour) returns (firstRaised: bool, secondRaised: bool)
    requires gpio.pwmPins == {}
    modifies gpio
    ensures !firstRaised && secondRaised
  {
    MachineExamples();
    var first := new Session();
    var hw1, warned1;
    hw1, warned1, firstRaised := first.Acquire("aarch64", true, gpio, camera);
    var second := new Session();
    var hw2, warned2;
    hw2, warned2, secondRaised := second.Acquire("aarch64", true, gpio, camera);
  }

  /**
   * "Simulate Doorbell Press", offered only for the mock: flips the mock's
   * doorbell flag and nothing else.
   */
  method PressSimulatedDoorbell(hw: Controller)
    modifies if hw.Mock? then {hw.mock} else {}
    ensures hw.Mock? ==> hw.mock.doorbellPressed == !old(hw.mock.doorbellPressed)
    ensures hw.Mock? ==> hw.mock.roomLight == old(hw.mock.roomLight) && hw.mock.brightness == old(hw.mock.brightness)
    ensures hw.Mock? ==> hw.mock.color == old(hw.mock.color)
  {
    if hw.Mock? {
      hw.mock.doorbellPressed := !hw.mock.doorbellPressed;
    }
  }

  /** Distances at or below 20 cm count as an object in front of the sensor. */
  const DetectionThreshold: real := 20.0

  function ObjectDetected(cm: real): (detected: bool)
    ensures detected <==> Progress(cm) >= Progress(DetectionThreshold)
  {
    cm <= DetectionThreshold
  }

  /** max(0, 100 - cm / 3) / 100: the progress bar's fill for a distance. */
  function Progress(cm: real): (p: real)
    ensures 0.0 <= p
    ensures cm >= 0.0 ==> p <= 1.0
    ensures p == 0.0 <==> cm >= 300.0
  {
    (if 100.0 - cm / 3.0 > 0.0 then 100.0 - cm / 3.0 else 0.0) / 100.0
  }

  /** A nearer object never shows a smaller bar. */
  lemma ProgressAntitone(near: real, far: real)
    requires near <= far
    ensures Progress(far) <= Progress(near)
  {
  }

  /** Whenever an object is reported (at a non-negative distance) the bar is more than 90 % full. */
  lemma DetectedBarNearlyFull(cm: real)
    requires 0.0 <= cm && ObjectDetected(cm)
    ensures 0.9 < Progress(cm) <= 1.0
  {
  }
}

=== FILE: gpio.dfy ===
/**
 * The parts of the RPi.GPIO and picamera2 libraries the Raspberry Pi
 * controller drives, as state: the board's numbering mode, each claimed
 * pin's direction, the levels driven on outputs, the levels the outside
 * world puts on inputs, PWM generators and the camera.
 */
module Gpio {
  import opened Options

  datatype Level = Low | High
  datatype Numbering = Bcm | BoardPins
  datatype Pull = PullOff | PullUp | PullDown
  datatype Direction = Out | In(pull: Pull)

  /** The GPIO library's process-wide state. */
  class Board {
    var numbering: Option<Numbering>
    var warnings: bool
    /** Pins claimed with GPIO.setup and their direction. */
    var directions: map<int, Direction>
    /** Every GPIO.output call so far, oldest first. */
    var driven: seq<(int, Level)>
    /** Levels the outside world drives on pins (a pressed button, an echo). */
    var levels: map<int, Level>
    /** Pins that carry a PWM object that has not been stopped: GPIO.PWM refuses a second one there. */
    var pwmPins: set<int>

    constructor ()
      ensures numbering == None && warnings && directions == map[] && driven == [] && levels == map[]
      ensures pwmPins == {}
    {
      numbering, warnings, directions, driven, levels := None, true, map[], [], map[];
      pwmPins := {};
    }

    /** The level GPIO.input reads on `pin`: what the outside drives, else what the pull resistor gives. */
    function Sampled(pin: int): (level: Level)
      reads this
      ensures pin in levels ==> level == levels[pin]
      ensures pin !in levels ==> (level == High <==> pin in directions && directions[pin] == In(PullUp))
    {
      if pin in levels then levels[pin]
      else if pin in directions && directions[pin] == In(PullUp) then High
      else Low
    }

    method SetMode(mode: Numbering)
      modifies this
      ensures numbering == Some(mode)
      ensures warnings == old(warnings) && directions == old(directions)
      ensures driven == old(driven) && levels == old(levels) && pwmPins == old(pwmPins)
    {
      numbering := Some(mode);
    }

    method SetWarnings(on: bool)
      modifies this
      ensures warnings == on
      ensures numbering == old(numbering) && directions == old(directions)
      ensures driven == old(driven) && levels == old(levels) && pwmPins == old(pwmPins)
    {
      warnings := on;
    }

    method Setup(pin: int, direction: Direction)
      requires numbering.Some?
      modifies this
      ensures directions == old(directions)[pin := direction]
      ensures numbering == old(numbering) && warnings == old(warnings)
      ensures driven == old(driven) && levels == old(levels) && pwmPins == old(pwmPins)
    {
      directions := directions[pin := direction];
    }

    method Output(pin: int, level: Level)
      requires pin in directions && directions[pin] == Out
      modifies this
      ensures driven == old(driven) + [(pin, level)]
      ensures numbering == old(numbering) && warnings == old(warnings)
      ensures directions == old(directions) && levels == old(levels) && pwmPins == old(pwmPins)
    {
      driven := driven + [(pin, level)];
    }

    method Input(pin: int) returns (level: Level)
      requires pin in directions
      ensures level == Sampled(pin)
    {
      level := Sampled(pin);
    }

    /** GPIO.cleanup(): releases every claimed pin and forgets the numbering mode. */
    method Cleanup()
      modifies this
      ensures directions == map[] && numbering == None
      ensures warnings == old(warnings) && driven == old(driven) && levels == old(levels)
      ensures pwmPins == old(pwmPins)
    {
      directions := map[];
      numbering := None;
    }
  }

  /**
   * A PWM generator on one output pin (GPIO.PWM). Creating one registers
   * its pin with the board; stopping it gives the pin back.
   */
  class Pwm {
    const board: Board
    const pin: int
    const frequency: int
    /** Duty cycle in percent. */
    var duty: real
    var running: bool

    /** GPIO.PWM raises RuntimeError on a pin that is not an output or that already has a PWM. */
    constructor (board: Board, pin: int, frequency: int)
      requires pin in board.directions && board.directions[pin] == Out
      requires pin !in board.pwmPins
      modifies board
      ensures this.board == board && this.pin == pin && this.frequency == frequency
      ensures duty == 0.0 && !running
      ensures board.pwmPins == old(board.pwmPins) + {pin}
      ensures board.numbering == old(board.numbering) && board.warnings == old(board.warnings)
      ensures board.directions == old(board.directions)
      ensures board.driven == old(board.driven) && board.levels == old(board.levels)
    {
      this.board, this.pin, this.frequency := board, pin, frequency;
      duty, running := 0.0, false;
      board.pwmPins := board.pwmPins + {pin};
    }

    method Start(dutyCycle: real)
      requires 0.0 <= dutyCycle <= 100.0
      modifies this
      ensures running && duty == dutyCycle
    {
      running, duty := true, dutyCycle;
    }

    /** Rejects (ValueError in the library) a duty cycle outside [0, 100]. */
    method ChangeDutyCycle(dutyCycle: real)
      requires 0.0 <= dutyCycle <= 100.0
      modifies this
      ensures duty == dutyCycle && running == old(running)
    {
      duty := dutyCycle;
    }

    method Stop()
      modifies this, board
      ensures !running && duty == old(duty)
      ensures board.pwmPins == old(board.pwmPins) - {pin}
      ensures board.numbering == old(board.numbering) && board.warnings == old(board.warnings)
      ensures board.directions == old(board.directions)
      ensures board.driven == old(board.driven) && board.levels == old(board.levels)
    {
      running := false;
      board.pwmPins := board.pwmPins - {pin};
    }
  }

  /** How the camera behaves when the controller brings it up. */
  datatype CameraBehaviour =
    | Raises        // Picamera2(), configure or start raises
    | StaysStopped  // start returns but the camera reports it is not started
    | Starts

  /** A Picamera2 session. */
  class Camera {
    var configured: bool
    var started: bool

    constructor ()
      ensures !configured && !started
    {
      configured, started := false, false;
    }

    method Configure()
      modifies this
      ensures configured && started == old(started)
    {
      configured := true;
    }

    /** `comesUp` is whether the device actually starts; it is not decided here. */
    method Start(comesUp: bool)
      requires configured
      modifies this
      ensures started == comesUp && configured
    {
      started := comesUp;
    }

    method Stop()
      modifies this
      ensures !started && configured == old(configured)
    {
      started := false;
    }
  }
}

=== FILE: hex_color.dfy ===
/**
 * hex_to_rgb: strip every leading '#', then read the two-character slices
 * at offsets 0, 2 and 4 in base 16. Only hex digits are accepted.
 */
module HexColor {
  import opened Options

  /** str.lstrip(c): drop every leading `c`. */
  function LStrip(s: string, c: char): (r: string)
    ensures |r| <= |s| && r == s[|s| - |r|..]
    ensures r == [] || r[0] != c
    ensures forall i :: 0 <= i < |s| - |r| ==> s[i] == c
    decreases |s|
  {
    if |s| > 0 && s[0] == c then LStrip(s[1..], c) else s
  }

  /** s[i:j] for 0 <= i <= j: the bounds are clamped to the length, never an error. */
  function Slice(s: string, i: nat, j: nat): (r: string)
    requires i <= j
    ensures |r| == (if j <= |s| then j - i else if i <= |s| then |s| - i else 0)
    ensures forall k :: 0 <= k < |r| ==> r[k] == s[i + k]
  {
    if |s| <= i then [] else if |s| <= j then s[i..] else s[i..j]
  }

  /** The value of one hex digit, in either case. */
  function DigitValue(c: char): (v: Option<nat>)
    ensures v.Some? ==> v.value < 16
    ensures v.Some? <==> '0' <= c <= '9' || 'a' <= c <= 'f' || 'A' <= c <= 'F'
  {
    if '0' <= c <= '9' then Some(c as nat - '0' as nat)
    else if 'a' <= c <= 'f' then Some(c as nat - 'a' as nat + 10)
    else if 'A' <= c <= 'F' then Some(c as nat - 'A' as nat + 10)
    else None
  }

  function Pow16(n: nat): (p: nat)
    ensures p >= 1
  {
    if n == 0 then 1 else 16 * Pow16(n - 1)
  }

  /** int(s, 16) on hex digits: an empty string or any other character is an error (None). */
  function ParseHex(s: string): (r: Option<nat>)
    ensures r.Some? ==> r.value < Pow16(|s|)
    ensures r.Some? <==> |s| > 0 && forall i :: 0 <= i < |s| ==> DigitValue(s[i]).Some?
  {
    if |s| == 0 then None
    else if |s| == 1 then DigitValue(s[0])
    else
      match (ParseHex(s[..|s| - 1]), DigitValue(s[|s| - 1]))
      case (Some(high), Some(low)) => Some(high * 16 + low)
      case _ => None
  }

  /** hex_to_rgb, with Python's ValueError as None. */
  function HexToRgb(color: string): (rgb: Option<(int, int, int)>)
    ensures rgb.Some? ==> 0 <= rgb.value.0 <= 255 && 0 <= rgb.value.1 <= 255 && 0 <= rgb.value.2 <= 255
  {
    var h := LStrip(color, '#');
    match (ParseHex(Slice(h, 0, 2)), ParseHex(Slice(h, 2, 4)), ParseHex(Slice(h, 4, 6)))
    case (Some(r), Some(g), Some(b)) => Some((r, g, b))
    case _ => None
  }

  /** Hex digit for 0 <= v < 16, in upper or lower case. */
  function HexDigit(v: nat, upper: bool): (c: char)
    requires v < 16
    ensures DigitValue(c) == Some(v)
    ensures v >= 10 ==> (upper <==> 'A' <= c <= 'F')
  {
    if v < 10 then ('0' as int + v) as char
    else if upper then ('A' as int + v - 10) as char
    else ('a' as int + v - 10) as char
  }

  /** Two hex digits for 0 <= v < 256, high digit first. */
  function HexByte(v: nat, upper: bool): (s: string)
    requires v < 256
    ensures |s| == 2 && DigitValue(s[0]) == Some(v / 16) && DigitValue(s[1]) == Some(v % 16)
  {
    [HexDigit(v / 16, upper), HexDigit(v % 16, upper)]
  }

  /** The "#rrggbb" (or "#RRGGBB") form the colour picker hands to hex_to_rgb. */
  function ToHex(r: nat, g: nat, b: nat, upper: bool): (s: string)
    requires r < 256 && g < 256 && b < 256
    ensures |s| == 7 && s[0] == '#'
    ensures forall i :: 1 <= i < 7 ==> DigitValue(s[i]).Some?
  {
    "#" + HexByte(r, upper) + HexByte(g, upper) + HexByte(b, upper)
  }

  lemma ParseHexByte(v: nat, upper: bool)
    requires v < 256
    ensures ParseHex(HexByte(v, upper)) == Some(v)
  {
    var s := HexByte(v, upper);
    assert s[..|s| - 1] == [HexDigit(v / 16, upper)];
  }

  /** Stripping '#'s from a string that starts with something else changes nothing. */
  lemma LStripNoHash(s: string)
    requires |s| > 0 && s[0] != '#'
    ensures LStrip(s, '#') == s
  {
  }

  /** Formatting a colour as "#rrggbb" or "#RRGGBB" and parsing it back gives the colour. */
  lemma HexRoundTrip(r: nat, g: nat, b: nat, upper: bool)
    requires r < 256 && g < 256 && b < 256
    ensures HexToRgb(ToHex(r, g, b, upper)) == Some((r, g, b))
  {
    var x, y, z := HexByte(r, upper), HexByte(g, upper), HexByte(b, upper);
    var h := x + y + z;
    assert ToHex(r, g, b, upper) == "#" + h;
    assert LStrip("#" + h, '#') == LStrip(h, '#');
    LStripNoHash(h);
    ThreeSlices(x, y, z);
    ParseHexByte(r, upper);
    ParseHexByte(g, upper);
    ParseHexByte(b, upper);
  }

  lemma ThreeSlices(x: string, y: string, z: string)
    requires |x| == 2 && |y| == 2 && |z| == 2
    ensures Slice(x + y + z, 0, 2) == x && Slice(x + y + z, 2, 4) == y && Slice(x + y + z, 4, 6) == z
  {
    var h := x + y + z;
    assert h[0..2] == x;
    assert h[2..4] == y;
    assert h[4..6] == z;
  }

  /** The picker's default colour, "#FFFFFF", is full white on all three channels. */
  lemma DefaultColourIsWhite()
    ensures HexToRgb("#FFFFFF") == Some((255, 255, 255))
  {
    assert ToHex(255, 255, 255, true) == "#FFFFFF";
    HexRoundTrip(255, 255, 255, true);
  }

  /** Any number of leading '#' is stripped: one more makes no difference. */
  lemma ExtraHashIgnored(color: string)
    ensures HexToRgb("#" + color) == HexToRgb(color)
  {
    assert ("#" + color)[1..] == color;
  }

  /** With four characters or fewer after stripping, the blue slice is empty and parsing fails. */
  lemma TooShortFails(color: string)
    requires |LStrip(color, '#')| <= 4
    ensures HexToRgb(color) == None
  {
  }

  /** With exactly five characters after stripping, blue is the single fifth digit. */
  lemma FiveCharactersBlue(color: string)
    requires |LStrip(color, '#')| == 5
    ensures HexToRgb(color).Some? ==> HexToRgb(color).value.2 == DigitValue(LStrip(color, '#')[4]).value
  {
    var h := LStrip(color, '#');
    assert Slice(h, 4, 6) == [h[4]];
  }

  /** lstrip of a string that keeps a non-'#' character distributes over appending. */
  lemma {:induction false} LStripAppend(s: string, tail: string)
    requires LStrip(s, '#') != []
    ensures LStrip(s + tail, '#') == LStrip(s, '#') + tail
    decreases |s|
  {
    if s[0] == '#' {
      assert (s + tail)[1..] == s[1..] + tail;
      LStripAppend(s[1..], tail);
    } else {
      assert (s + tail)[0] == s[0];
    }
  }

  lemma SliceAppend(h: string, tail: string, i: nat, j: nat)
    requires i <= j <= |h|
    ensures Slice(h + tail, i, j) == Slice(h, i, j)
  {
    assert (h + tail)[i..j] == h[i..j];
  }

  /** Characters after the sixth (after stripping) are ignored. */
  lemma TailIgnored(color: string, tail: string)
    requires |LStrip(color, '#')| >= 6
    ensures HexToRgb(color + tail) == HexToRgb(color)
  {
    var h := LStrip(color, '#');
    LStripAppend(color, tail);
    SliceAppend(h, tail, 0, 2);
    SliceAppend(h, tail, 2, 4);
    SliceAppend(h, tail, 4, 6);
  }
}

=== FILE: mock_controller.dfy ===
/**
 * MockController: the simulated controller. Setters record their argument,
 * reads return what was recorded, and the sensors synthesise values.
 */
module MockHardware {
  import opened Options
  import opened Rounding

  /** Where the placeholder snapshot lives: os.path.join("assets", "placeholder.jpg"). */
  const PlaceholderPath: string := "assets/placeholder.jpg"

  /** The simulated object sits 80 cm away; readings jitter by up to 1.5 cm either way. */
  const BaseDistance: real := 80.0
  const NoiseBound: real := 1.5

  class MockController {
    var roomLight: bool
    var brightness: int
    var color: (int, int, int)
    /** Set from outside (the dashboard's simulate button); the mock never writes it. */
    var doorbellPressed: bool

    /** The state a new MockController starts in. */
    ghost predicate Initial()
      reads this
    {
      !roomLight && brightness == 100 && color == (255, 255, 255) && !doorbellPressed
    }

    constructor ()
      ensures !roomLight && brightness == 100 && color == (255, 255, 255) && !doorbellPressed
      ensures Initial()
    {
      roomLight, brightness, color, doorbellPressed := false, 100, (255, 255, 255), false;
    }

    /** Nothing to configure on simulated hardware. */
    method Setup()
      ensures unchanged(this)
    {
    }

    method SetRoomLight(on: bool)
      modifies this
      ensures roomLight == on
      ensures brightness == old(brightness) && color == old(color) && doorbellPressed == old(doorbellPressed)
    {
      roomLight := on;
    }

    method SetDimmableLight(level: int)
      modifies this
      ensures brightness == level
      ensures roomLight == old(roomLight) && color == old(color) && doorbellPressed == old(doorbellPressed)
    {
      brightness := level;
    }

    method SetMoodLampColor(r: int, g: int, b: int)
      modifies this
      ensures color == (r, g, b)
      ensures roomLight == old(roomLight) && brightness == old(brightness) && doorbellPressed == old(doorbellPressed)
    {
      color := (r, g, b);
    }

    /** The recorded doorbell flag; reading changes nothing. */
    method ReadDoorbell() returns (pressed: bool)
      ensures pressed == doorbellPressed
    {
      pressed := doorbellPressed;
    }

    /**
     * 80 cm plus the noise drawn uniformly from [-1.5, 1.5] (a parameter here),
     * rounded to one decimal: always within [78.5, 81.5] and within 0.05 of 80 + noise.
     */
    method GetDistance(noise: real) returns (cm: real)
      requires -NoiseBound <= noise <= NoiseBound
      ensures cm == Round(BaseDistance + noise, 1)
      ensures 78.5 <= cm <= 81.5
      ensures BaseDistance + noise - 0.05 < cm <= BaseDistance + noise + 0.05
    {
      cm := Round(BaseDistance + noise, 1);
      RoundWithin(BaseDistance + noise, 785, 815, 1);
    }

    /**
     * The placeholder's path when `placeholderExists` (os.path.exists, a
     * parameter here), else None. Nothing is written to `outputPath`.
     */
    method CaptureImage(outputPath: string, placeholderExists: bool) returns (path: Option<string>)
      ensures path == if placeholderExists then Some(PlaceholderPath) else None
    {
      if placeholderExists {
        path := Some(PlaceholderPath);
      } else {
        path := None;
      }
    }

    /** Nothing to release on simulated hardware. */
    method Cleanup()
      ensures unchanged(this)
    {
    }
  }
}

=== FILE: options.dfy ===
/** The "no result" sentinel of the controllers (Python's None). */
module Options {
  datatype Option<+T> = None | Some(value: T)
}

=== FILE: pi_controller.dfy ===
/**
 * RaspberryPiController: binds the lamps, the doorbell button, the
 * ultrasonic sensor and the camera to a fixed BCM pin map and drives them
 * through the GPIO library's state.
 */
module PiHardware {
  import opened Options
  import opened Gpio
  import opened Ultrasonic

  // The BCM pin map. The room light and the dimmable light share pin 12.
  const LedPin: int := 12
  const BtnPin: int := 25
  const TrigPin: int := 22
  const EchoPin: int := 27
  const RPin: int := 18
  const GPin: int := 23
  const BPin: int := 24

  /** The four pins setup() puts a PWM on. */
  const LampPins: set<int> := {LedPin, RPin, GPin, BPin}

  const LedFrequency: int := 500
  const RgbFrequency: int := 100

  datatype Role = RoomLight | DimmableLight | Red | Green | Blue | Doorbell | Trigger | EchoSensor

  function PinOf(role: Role): (pin: int)
    ensures pin == LedPin <==> role == RoomLight || role == DimmableLight
    ensures pin in {LedPin, RPin, GPin, BPin, BtnPin, TrigPin, EchoPin}
  {
    match role
    case RoomLight => LedPin
    case DimmableLight => LedPin
    case Red => RPin
    case Green => GPin
    case Blue => BPin
    case Doorbell => BtnPin
    case Trigger => TrigPin
    case EchoSensor => EchoPin
  }

  /** Two roles share a pin only when they are the room light and the dimmable light. */
  lemma PinMapShared(a: Role, b: Role)
    ensures PinOf(a) == PinOf(b) <==> a == b || {a, b} == {RoomLight, DimmableLight}
  {
  }

  /** Duty cycle (percent) for a 0-255 colour channel: value / 255 * 100. */
  function Duty(value: int): (d: real)
    ensures 0 <= value <= 255 ==> 0.0 <= d <= 100.0
    ensures value == 0 ==> d == 0.0
    ensures value == 255 ==> d == 100.0
  {
    value as real / 255.0 * 100.0
  }

  /** A brighter channel value never gives a smaller duty cycle. */
  lemma DutyMonotone(v: int, w: int)
    requires v <= w
    ensures Duty(v) <= Duty(w)
  {
  }

  /** Duty cycle of the shared LED for the room light switch. */
  function SwitchDuty(on: bool): (d: real)
    ensures on ==> d == 100.0
    ensures !on ==> d == 0.0
  {
    if on then 100.0 else 0.0
  }

  /** The directions setup() gives the pins on top of `d`. */
  function Configured(d: map<int, Direction>): (c: map<int, Direction>)
    ensures PinsConfigured(c)
    ensures c.Keys == d.Keys + {LedPin, RPin, GPin, BPin, BtnPin, TrigPin, EchoPin}
    ensures forall p :: p in d && p !in {LedPin, RPin, GPin, BPin, BtnPin, TrigPin, EchoPin} ==> c[p] == d[p]
  {
    d[LedPin := Out][RPin := Out][GPin := Out][BPin := Out][BtnPin := In(PullUp)][TrigPin := Out][EchoPin := In(PullOff)]
  }

  ghost predicate PinsConfigured(d: map<int, Direction>)
  {
    && LedPin in d && d[LedPin] == Out
    && RPin in d && d[RPin] == Out
    && GPin in d && d[GPin] == Out
    && BPin in d && d[BPin] == Out
    && BtnPin in d && d[BtnPin] == In(PullUp)
    && TrigPin in d && d[TrigPin] == Out
    && EchoPin in d && d[EchoPin] == In(PullOff)
  }

  /** The pull-up holds an untouched button HIGH, so it does not read as pressed. */
  lemma IdleDoorbellReadsHigh(p: PiController)
    requires p.Ready() && BtnPin !in p.gpio.levels
    ensures p.gpio.Sampled(BtnPin) == High
  {
  }

  datatype CleanupOutcome =
    | Released
    | PwmMissing     // setup never ran: pwm_led is None and its stop() raises
    | CameraMissing  // PWMs stopped and pins released, then picam2 is None and its stop() raises

  class PiController {
    /** The imported GPIO library. */
    const gpio: Board
    var pwmLed: Pwm?
    var pwmR: Pwm?
    var pwmG: Pwm?
    var pwmB: Pwm?
    var picam2: Camera?

    /**
     * Either setup has not created the PWMs (nor the camera) yet, or all
     * four exist on their own pins of this controller's board.
     */
    ghost predicate Valid()
      reads this
    {
      || (pwmLed == null && pwmR == null && pwmG == null && pwmB == null && picam2 == null)
      || (&& pwmLed != null && pwmR != null && pwmG != null && pwmB != null
          && pwmLed.pin == LedPin && pwmR.pin == RPin && pwmG.pin == GPin && pwmB.pin == BPin
          && pwmLed.board == gpio && pwmR.board == gpio && pwmG.board == gpio && pwmB.board == gpio)
    }

    /** As constructed: nothing claimed yet. */
    ghost predicate Unset()
      reads this
    {
      pwmLed == null && pwmR == null && pwmG == null && pwmB == null && picam2 == null
    }

    /** Set up and not cleaned up: every PWM running, every pin configured. */
    ghost predicate Ready()
      reads this, gpio, pwmLed, pwmR, pwmG, pwmB
    {
      && Valid()
      && pwmLed != null && pwmLed.running
      && pwmR != null && pwmR.running
      && pwmG != null && pwmG.running
      && pwmB != null && pwmB.running
      && gpio.numbering == Some(Bcm)
      && PinsConfigured(gpio.directions)
    }

    /** The libraries imported; pins recorded, no handle created yet. */
    constructor (gpio: Board)
      ensures this.gpio == gpio
      ensures Valid() && Unset()
    {
      this.gpio := gpio;
      pwmLed, pwmR, pwmG, pwmB, picam2 := null, null, null, null, null;
    }

    /**
     * BCM numbering, warnings off, every output configured, every PWM
     * started at 0 %, the button as a pulled-up input, trigger out and echo
     * in, then the camera; a camera that raises or does not start leaves
     * picam2 as None and the rest of setup stands.
     *
     * When pin 12 already carries a PWM (another controller on the same
     * board set it up), GPIO.PWM raises right after the LED pin is set up:
     * `ok` is false and the controller still holds nothing.
     */
    method Setup(camera: CameraBehaviour) returns (ok: bool)
      requires Valid() && Unset()
      requires LedPin in gpio.pwmPins || {RPin, GPin, BPin} !! gpio.pwmPins
      modifies this, gpio
      ensures ok <==> LedPin !in old(gpio.pwmPins)
      ensures Valid()
      ensures gpio.numbering == Some(Bcm) && !gpio.warnings
      ensures gpio.driven == old(gpio.driven) && gpio.levels == old(gpio.levels)
      ensures !ok ==> Unset() && gpio.directions == old(gpio.directions)[LedPin := Out] && gpio.pwmPins == old(gpio.pwmPins)
      ensures ok ==> Ready()
      ensures ok ==> gpio.directions == Configured(old(gpio.directions)) && gpio.pwmPins == old(gpio.pwmPins) + LampPins
      ensures ok ==> fresh(pwmLed) && fresh(pwmR) && fresh(pwmG) && fresh(pwmB)
      ensures ok ==> pwmLed.frequency == LedFrequency
      ensures ok ==> pwmR.frequency == RgbFrequency && pwmG.frequency == RgbFrequency && pwmB.frequency == RgbFrequency
      ensures ok ==> pwmLed.duty == 0.0 && pwmR.duty == 0.0 && pwmG.duty == 0.0 && pwmB.duty == 0.0
      ensures ok ==> ((picam2 != null) == (camera == Starts))
      ensures picam2 != null ==> fresh(picam2) && picam2.started
    {
      gpio.SetMode(Bcm);
      gpio.SetWarnings(false);
      if LedPin in gpio.pwmPins {
        gpio.Setup(LedPin, Out);
        return false;
      }
      var led, red, green, blue := StartLamps();
      ConfigureSensors();
      var cam := StartCamera(camera);
      pwmLed, pwmR, pwmG, pwmB, picam2 := led, red, green, blue, cam;
      ok := true;
    }

    /** The shared LED on pin 12 at 500 Hz and the three colour channels at 100 Hz, all at 0 %. */
    method StartLamps() returns (led: Pwm, red: Pwm, green: Pwm, blue: Pwm)
      requires gpio.numbering.Some?
      requires LampPins !! gpio.pwmPins
      modifies gpio
      ensures gpio.directions == old(gpio.directions)[LedPin := Out][RPin := Out][GPin := Out][BPin := Out]
      ensures gpio.numbering == old(gpio.numbering) && gpio.warnings == old(gpio.warnings)
      ensures gpio.driven == old(gpio.driven) && gpio.levels == old(gpio.levels)
      ensures gpio.pwmPins == old(gpio.pwmPins) + LampPins
      ensures fresh(led) && fresh(red) && fresh(green) && fresh(blue)
      ensures led.pin == LedPin && red.pin == RPin && green.pin == GPin && blue.pin == BPin
      ensures led.board == gpio && red.board == gpio && green.board == gpio && blue.board == gpio
      ensures led.frequency == LedFrequency
      ensures red.frequency == RgbFrequency && green.frequency == RgbFrequency && blue.frequency == RgbFrequency
      ensures led.running && red.running && green.running && blue.running
      ensures led.duty == 0.0 && red.duty == 0.0 && green.duty == 0.0 && blue.duty == 0.0
    {
      gpio.Setup(LedPin, Out);
      led := new Pwm(gpio, LedPin, LedFrequency);
      led.Start(0.0);

      gpio.Setup(RPin, Out);
      gpio.Setup(GPin, Out);
      gpio.Setup(BPin, Out);
      red := new Pwm(gpio, RPin, RgbFrequency);
      green := new Pwm(gpio, GPin, RgbFrequency);
      blue := new Pwm(gpio, BPin, RgbFrequency);
      red.Start(0.0);
      green.Start(0.0);
      blue.Start(0.0);
    }

    /** The doorbell button as a pulled-up input, the trigger as an output, the echo as an input. */
    method ConfigureSensors()
      requires gpio.numbering.Some?
      modifies gpio
      ensures gpio.directions == old(gpio.directions)[BtnPin := In(PullUp)][TrigPin := Out][EchoPin := In(PullOff)]
      ensures gpio.numbering == old(gpio.numbering) && gpio.warnings == old(gpio.warnings)
      ensures gpio.driven == old(gpio.driven) && gpio.levels == old(gpio.levels) && gpio.pwmPins == old(gpio.pwmPins)
    {
      gpio.Setup(BtnPin, In(PullUp));
      gpio.Setup(TrigPin, Out);
      gpio.Setup(EchoPin, In(PullOff));
    }

    /** A started camera, or null when it raises or does not come up. */
    method StartCamera(camera: CameraBehaviour) returns (cam: Camera?)
      ensures (cam != null) == (camera == Starts)
      ensures cam != null ==> fresh(cam) && cam.started
    {
      cam := null;
      if camera != Raises {
        cam := new Camera();
        cam.Configure();
        cam.Start(camera == Starts);
        if !cam.started {
          cam := null;
        }
      }
    }

    /** Full (100 %) or no (0 %) duty on the shared LED PWM. */
    method SetRoomLight(on: bool)
      requires Ready()
      modifies pwmLed
      ensures Ready()
      ensures pwmLed.duty == SwitchDuty(on)
    {
      pwmLed.ChangeDutyCycle(if on then 100.0 else 0.0);
    }

    /** The brightness goes to the shared LED PWM unchanged. */
    method SetDimmableLight(brightness: int)
      requires Ready()
      requires 0 <= brightness <= 100
      modifies pwmLed
      ensures Ready()
      ensures pwmLed.duty == brightness as real
    {
      pwmLed.ChangeDutyCycle(brightness as real);
    }

    /** Each channel's PWM gets that channel's value scaled from 0-255 to 0-100. */
    method SetMoodLampColor(r: int, g: int, b: int)
      requires Ready()
      requires 0 <= r <= 255 && 0 <= g <= 255 && 0 <= b <= 255
      modifies pwmR, pwmG, pwmB
      ensures Ready()
      ensures pwmR.duty == Duty(r) && pwmG.duty == Duty(g) && pwmB.duty == Duty(b)
    {
      pwmR.ChangeDutyCycle(r as real / 255.0 * 100.0);
      pwmG.ChangeDutyCycle(g as real / 255.0 * 100.0);
      pwmB.ChangeDutyCycle(b as real / 255.0 * 100.0);
    }

    /** Active low: pressed exactly when the pulled-up button pin reads LOW. */
    method ReadDoorbell() returns (pressed: bool)
      requires Ready()
      ensures pressed <==> gpio.Sampled(BtnPin) == Low
    {
      var level := gpio.Input(BtnPin);
      pressed := level == Low;
    }

    /**
     * Trigger low, high, low (the settle and pulse delays are not modelled),
     * then the two echo polling loops over `echo`.
     */
    method GetDistance(echo: seq<Sample>) returns (reading: Reading)
      requires Ready()
      modifies gpio
      ensures Ready()
      ensures reading == Echo(echo)
      ensures gpio.driven == old(gpio.driven) + [(TrigPin, Low), (TrigPin, High), (TrigPin, Low)]
      ensures gpio.numbering == old(gpio.numbering) && gpio.directions == old(gpio.directions)
      ensures gpio.levels == old(gpio.levels) && gpio.warnings == old(gpio.warnings) && gpio.pwmPins == old(gpio.pwmPins)
    {
      gpio.Output(TrigPin, Low);
      gpio.Output(TrigPin, High);
      gpio.Output(TrigPin, Low);
      reading := TimeEcho(echo);
    }

    /**
     * `outputPath` when the camera saves the still (`captureSucceeds`, decided
     * by the device); None when it fails, and None when there is no camera,
     * whose missing-object error is caught the same way.
     */
    method CaptureImage(outputPath: string, captureSucceeds: bool) returns (path: Option<string>)
      ensures path == if picam2 != null && captureSucceeds then Some(outputPath) else None
    {
      if picam2 == null {
        path := None;
      } else if captureSucceeds {
        path := Some(outputPath);
      } else {
        path := None;
      }
    }

    /**
     * Stops the four PWMs, releases the pins, then stops the camera. None
     * of the steps is guarded: before setup the first one fails and nothing
     * changes; without a camera the last one fails after the PWMs and pins
     * have been released.
     */
    method Cleanup() returns (outcome: CleanupOutcome)
      requires Valid()
      modifies gpio, pwmLed, pwmR, pwmG, pwmB, picam2
      ensures Valid()
      ensures pwmLed == null ==> outcome == PwmMissing && unchanged(gpio) && picam2 == null
      ensures pwmLed != null ==> !pwmLed.running && !pwmR.running && !pwmG.running && !pwmB.running
      ensures pwmLed != null ==> gpio.pwmPins == old(gpio.pwmPins) - LampPins
      ensures gpio.warnings == old(gpio.warnings) && gpio.driven == old(gpio.driven) && gpio.levels == old(gpio.levels)
      ensures pwmLed != null ==> pwmLed.duty == old(pwmLed.duty) && pwmR.duty == old(pwmR.duty)
      ensures pwmLed != null ==> pwmG.duty == old(pwmG.duty) && pwmB.duty == old(pwmB.duty)
      ensures picam2 != null ==> picam2.configured == old(picam2.configured)
      ensures pwmLed != null ==> gpio.directions == map[] && gpio.numbering == None && !Ready()
      ensures pwmLed != null ==> outcome == if picam2 == null then CameraMissing else Released
      ensures pwmLed != null && picam2 != null ==> !picam2.started
    {
      if pwmLed == null {
        return PwmMissing;
      }
      pwmLed.Stop();
      pwmR.Stop();
      pwmG.Stop();
      pwmB.Stop();
      gpio.Cleanup();
      if picam2 == null {
        return CameraMissing;
      }
      picam2.Stop();
      outcome := Released;
    }
  }
}

=== FILE: rounding.dfy ===
/**
 * Python's round(x, places) on exact reals. Ties are rounded up (half-up);
 * Python rounds the binary double instead, which this model does not follow.
 */
module Rounding {

  /** 10^places. */
  function Scale(places: nat): (s: nat)
    ensures s >= 1
  {
    if places == 0 then 1 else 10 * Scale(places - 1)
  }

  /** The number of 10^-places steps nearest to x, ties upward. */
  function Steps(x: real, places: nat): (n: int)
    ensures x * Scale(places) as real - 0.5 < n as real <= x * Scale(places) as real + 0.5
  {
    (x * Scale(places) as real + 0.5).Floor
  }

  /** r is a whole number of steps of size 10^-places. */
  predicate OnGrid(r: real, places: nat)
  {
    r * Scale(places) as real == (r * Scale(places) as real).Floor as real
  }

  /** n steps of size 1/s, scaled back up by s, is the whole number n again. */
  lemma StepsOnGrid(n: int, places: nat)
    ensures OnGrid(n as real / Scale(places) as real, places)
  {
    assert n as real / Scale(places) as real * Scale(places) as real == n as real;
  }

  /** x rounded to `places` decimal places, ties upward: a whole number of 10^-places steps, the nearest one to x. */
  function Round(x: real, places: nat): (r: real)
    ensures OnGrid(r, places)
    ensures x - 1.0 / (2.0 * Scale(places) as real) < r <= x + 1.0 / (2.0 * Scale(places) as real)
  {
    var n := Steps(x, places);
    DivideBounds(x, n as real, Scale(places) as real);
    StepsOnGrid(n, places);
    n as real / Scale(places) as real
  }

  lemma DivideBounds(x: real, n: real, s: real)
    requires s >= 1.0
    requires x * s - 0.5 < n <= x * s + 0.5
    ensures x - 1.0 / (2.0 * s) < n / s <= x + 1.0 / (2.0 * s)
  {
    assert n / s * s == n;
    assert (x - 1.0 / (2.0 * s)) * s == x * s - 0.5;
    assert (x + 1.0 / (2.0 * s)) * s == x * s + 0.5;
  }

  /** Rounding never reverses the order of two values. */
  lemma RoundMonotone(x: real, y: real, places: nat)
    requires x <= y
    ensures Round(x, places) <= Round(y, places)
  {
    var s := Scale(places) as real;
    ScaleMonotone(x, y, s);
    var a, b := Steps(x, places), Steps(y, places);
    assert a <= b;
    DivideMonotone(a as real, b as real, s);
  }

  lemma ScaleMonotone(x: real, y: real, s: real)
    requires x <= y && s > 0.0
    ensures x * s <= y * s
  {
  }

  lemma DivideMonotone(x: real, y: real, s: real)
    requires x <= y && s > 0.0
    ensures x / s <= y / s
  {
  }

  /** A value that already has `places` decimals is left as it is. */
  lemma RoundExact(n: int, places: nat)
    ensures Round(n as real / Scale(places) as real, places) == n as real / Scale(places) as real
  {
    var s := Scale(places) as real;
    var x := n as real / s;
    assert x * s == n as real;
    var k := Steps(x, places);
    assert n as real - 0.5 < k as real <= n as real + 0.5;
    assert k == n;
    assert Round(x, places) == k as real / s;
  }

  /** Rounding a value of [lo, hi] whose bounds have `places` decimals stays in [lo, hi]. */
  lemma RoundWithin(x: real, lo: int, hi: int, places: nat)
    requires lo as real / Scale(places) as real <= x <= hi as real / Scale(places) as real
    ensures lo as real / Scale(places) as real <= Round(x, places) <= hi as real / Scale(places) as real
  {
    RoundMonotone(lo as real / Scale(places) as real, x, places);
    RoundMonotone(x, hi as real / Scale(places) as real, places);
    RoundExact(lo, places);
    RoundExact(hi, places);
  }
}

=== FILE: ultrasonic.dfy ===
/**
 * The ultrasonic ranging protocol of RaspberryPiController.get_distance:
 * two busy-wait loops over the echo pin, then (end - start) * 17150 cm.
 *
 * The unbounded polling is replaced by a finite trace of samples. Each
 * GPIO.input call consumes one sample; its `time` is what time.time()
 * returns right after that read. Running off the end of the trace stands
 * for the loop that never ends.
 */
module Ultrasonic {
  import opened Gpio
  import opened Rounding
  import opened Options

  datatype Sample = Sample(level: Level, time: real)

  /** Half the speed of sound in cm/s: the echo travels there and back. */
  const HalfSpeedOfSound: real := 17150.0

  datatype Reading =
    | Measured(cm: real)
    | NoEcho        // the echo pin never changes: the busy-wait does not end
    | EndUnbound    // the second loop never ran: pulse_end is unassigned
    | StartUnbound  // the first loop never ran: pulse_start is unassigned

  /** Index of the first sample at or after `from` whose level is not `level`, or |trace|. */
  function RunEnd(trace: seq<Sample>, from: nat, level: Level): (e: nat)
    requires from <= |trace|
    ensures from <= e <= |trace|
    ensures forall i :: from <= i < e ==> trace[i].level == level
    ensures e < |trace| ==> trace[e].level != level
    decreases |trace| - from
  {
    if from == |trace| || trace[from].level != level then from
    else RunEnd(trace, from + 1, level)
  }

  /** The distance for a pulse that rose after `start` and fell after `end`, to two decimals. */
  function Distance(start: real, end: real): (cm: real)
    ensures OnGrid(cm, 2)
    ensures (end - start) * HalfSpeedOfSound - 0.005 < cm <= (end - start) * HalfSpeedOfSound + 0.005
    ensures start <= end ==> cm >= 0.0
  {
    var d := (end - start) * HalfSpeedOfSound;
    if start <= end then
      RoundMonotone(0.0, d, 2);
      RoundExact(0, 2);
      Round(d, 2)
    else
      Round(d, 2)
  }

  /**
   * What get_distance returns on `trace`. The first loop consumes the low
   * run and the high sample that ends it; the second loop consumes the rest
   * of the high run and the low sample that ends it.
   */
  function Echo(trace: seq<Sample>): (r: Reading)
    ensures r.Measured? ==> |trace| >= 4 && trace[0].level == Low
    ensures r.Measured? ==> exists i :: 0 < i < |trace| - 1 && trace[i].level == High
  {
    var k := RunEnd(trace, 0, Low);
    if k == |trace| then NoEcho
    else
      var m := RunEnd(trace, k + 1, High);
      if m == |trace| then NoEcho
      else if m == k + 1 then EndUnbound
      else if k == 0 then StartUnbound
      else Measured(Distance(trace[k - 1].time, trace[m - 1].time))
  }

  /** The two polling loops of get_distance, run over `trace`. */
  method TimeEcho(trace: seq<Sample>) returns (reading: Reading)
    ensures reading == Echo(trace)
  {
    var i := 0;
    var pulseStart: Option<real> := None;
    while i < |trace| && trace[i].level == Low
      invariant i <= |trace|
      invariant forall j :: 0 <= j < i ==> trace[j].level == Low
      invariant pulseStart == if i == 0 then None else Some(trace[i - 1].time)
    {
      pulseStart := Some(trace[i].time);
      i := i + 1;
    }
    if i == |trace| {
      return NoEcho;
    }
    i := i + 1;
    var first := i;
    var pulseEnd: Option<real> := None;
    while i < |trace| && trace[i].level == High
      invariant first <= i <= |trace|
      invariant forall j :: first <= j < i ==> trace[j].level == High
      invariant pulseEnd == if i == first then None else Some(trace[i - 1].time)
    {
      pulseEnd := Some(trace[i].time);
      i := i + 1;
    }
    if i == |trace| {
      return NoEcho;
    }
    if pulseEnd.None? {
      return EndUnbound;
    }
    if pulseStart.None? {
      return StartUnbound;
    }
    reading := Measured(Distance(pulseStart.value, pulseEnd.value));
  }

  /** A run that ends inside the trace ends at the same place in any longer trace. */
  lemma {:induction false} RunEndExtends(trace: seq<Sample>, more: seq<Sample>, from: nat, level: Level)
    requires from <= |trace|
    requires RunEnd(trace, from, level) < |trace|
    ensures RunEnd(trace + more, from, level) == RunEnd(trace, from, level)
    decreases |trace| - from
  {
    assert (trace + more)[from] == trace[from];
    if trace[from].level == level {
      RunEndExtends(trace, more, from + 1, level);
    }
  }

  /** Two runs pin down where RunEnd stops. */
  lemma RunEndAt(trace: seq<Sample>, from: nat, level: Level, e: nat)
    requires from <= e < |trace|
    requires forall i :: from <= i < e ==> trace[i].level == level
    requires trace[e].level != level
    ensures RunEnd(trace, from, level) == e
  {
  }

  /**
   * A low run of at least one sample, then a high run of at least two,
   * then a low sample: the reading is the time of the last high sample
   * minus that of the last low sample, times 17150, rounded.
   */
  lemma EchoPulse(trace: seq<Sample>, k: nat, m: nat)
    requires 1 <= k && k + 2 <= m < |trace|
    requires forall i :: 0 <= i < k ==> trace[i].level == Low
    requires forall i :: k <= i < m ==> trace[i].level == High
    requires trace[m].level == Low
    ensures Echo(trace) == Measured(Round((trace[m - 1].time - trace[k - 1].time) * 17150.0, 2))
  {
    RunEndAt(trace, 0, Low, k);
    RunEndAt(trace, k + 1, High, m);
  }

  /**
   * A high run of exactly one sample is consumed by the first loop's exit
   * test, so the second loop never assigns pulse_end.
   */
  lemma EchoOneSampleHigh(trace: seq<Sample>, k: nat)
    requires k + 1 < |trace|
    requires forall i :: 0 <= i < k ==> trace[i].level == Low
    requires trace[k].level == High && trace[k + 1].level == Low
    ensures Echo(trace) == EndUnbound
  {
    RunEndAt(trace, 0, Low, k);
    RunEndAt(trace, k + 1, High, k + 1);
  }

  /** Echo already high at the first read: pulse_start is never assigned, so no distance comes out. */
  lemma EchoHighAtFirstRead(trace: seq<Sample>)
    requires |trace| > 0 && trace[0].level == High
    ensures Echo(trace) in {NoEcho, EndUnbound, StartUnbound}
  {
    RunEndAt(trace, 0, Low, 0);
  }

  /** The echo never rises: the first loop polls forever. */
  lemma EchoNeverRises(trace: seq<Sample>)
    requires forall i :: 0 <= i < |trace| ==> trace[i].level == Low
    ensures Echo(trace) == NoEcho
  {
  }

  /** The echo rises and never falls: the second loop polls forever. */
  lemma EchoNeverFalls(trace: seq<Sample>, k: nat)
    requires k < |trace|
    requires forall i :: 0 <= i < k ==> trace[i].level == Low
    requires forall i :: k <= i < |trace| ==> trace[i].level == High
    ensures Echo(trace) == NoEcho
  {
    RunEndAt(trace, 0, Low, k);
  }

  predicate Chronological(trace: seq<Sample>)
  {
    forall i, j :: 0 <= i <= j < |trace| ==> trace[i].time <= trace[j].time
  }

  /** With timestamps that never go back, a measured distance is never negative. */
  lemma EchoNonNegative(trace: seq<Sample>)
    requires Chronological(trace)
    ensures Echo(trace).Measured? ==> Echo(trace).cm >= 0.0
  {
    if Echo(trace).Measured? {
      var k := RunEnd(trace, 0, Low);
      var m := RunEnd(trace, k + 1, High);
      assert trace[k - 1].time <= trace[m - 1].time;
    }
  }

  /**
   * Once the pulse has fallen (or a variable is left unbound) the reading
   * is decided: samples after the ones consumed do not change it.
   */
  lemma EchoIgnoresLaterSamples(trace: seq<Sample>, more: seq<Sample>)
    requires Echo(trace) != NoEcho
    ensures Echo(trace + more) == Echo(trace)
  {
    var k := RunEnd(trace, 0, Low);
    RunEndExtends(trace, more, 0, Low);
    var m := RunEnd(trace, k + 1, High);
    RunEndExtends(trace, more, k + 1, High);
    if k > 0 && m < |trace| {
      assert (trace + more)[k - 1] == trace[k - 1];
      assert (trace + more)[m - 1] == trace[m - 1];
    }
  }

  /** Echo rises after 0.0002 s and falls after 0.0007 s: 0.0005 s * 17150 = 8.575 cm, shown as 8.58. */
  lemma EchoExample()
    ensures Echo([Sample(Low, 0.0001), Sample(Low, 0.0002), Sample(High, 0.0003),
                  Sample(High, 0.0007), Sample(Low, 0.0008)]) == Measured(8.58)
  {
    var trace := [Sample(Low, 0.0001), Sample(Low, 0.0002), Sample(High, 0.0003),
                  Sample(High, 0.0007), Sample(Low, 0.0008)];
    EchoPulse(trace, 2, 4);
    assert Steps(8.575, 2) == 858;
  }
}
